=== FILE: README.md ===
# Survey bot and generation-parameter grid, in Dafny

This project models two pieces of a small course repository.

The first is a Telegram survey bot (lab04). A user sends `/start`. The bot then asks six questions in a fixed order:

1. order frequency
2. order process
3. delivery speed
4. delivery quality
5. overall satisfaction
6. additional comments

Each answer is stored lower-cased. After the last answer the bot sends a summary of all six answers and a thank-you step, then clears the user's context (sending is assumed to succeed; see Left out). At any time `/model` offers two checkpoint names as buttons. The next message, whatever its text other than `/model` itself, is lower-cased and loaded as the single global model. If the load fails, the model stays as it was. Once a model has been chosen, a step with a non-empty prompt is shown as the model's generated text instead of its fixed text.

The second piece is the lab02 experiment. It generates a grid of twelve parameter settings and runs every prompt through every setting. The results are collected with non-breaking spaces replaced by plain spaces.

Modules:

- `Text` (text.dfy): whitespace trimming, the first word of a message, `str.lower()` and `str.replace()` on single characters.
- `Keyboard` (keyboard.dfy): `create_buttons`, which builds a one-row reply keyboard.
- `States` (states.dfy): the six survey states, their order and their keys, plus the model-selection state.
- `Filters` (filters.dfy): aiogram's `Command` filter, which tests the first word of the text.
- `Handlers` (handlers.dfy):
  - `handle_survey_step`, the handlers, and the router's choice of handler.
  - One message of one user is `Step`, a pure function from (context, global model, text) to an `Outcome`.
  - An `Outcome` holds the new context, the new global model, the messages sent and the exception raised, if any.
- `SurveyInvariant` (invariant.dfy):
  - the shape of every reachable context;
  - why the summary never misses an answer;
  - which exceptions remain possible.
- `Dispatcher` (dispatcher.dfy):
  - one context per user, created empty on first contact;
  - the shared global model;
  - runs of many messages from many users.
- `Scenarios` (scenarios.dfy): single messages through the dispatcher, for the start of the survey, an answer and the last answer.
- `ParameterGrid` (grid.dfy):
  - `create_parameter_combinations`, its count, order and key rules;
  - the aggregation loop of `main`.
- `ModelLoader` (loader.dfy): `BaseModel`'s choice of loader class (see Findings).
- `Wrappers` (wrappers.dfy): `Option` and `Result`.

Exceptions are modelled as values. A missing step in the survey table, or a missing answer in the summary, raises a `KeyError`. A model name that does not load makes the `BaseModel` constructor raise. In each case the handler stops where the exception is raised. Messages already sent and state already changed stay in effect.

The survey table, the test "does this model name load", and the generator are parameters (`Env`).

## Behaviour at the edges

- `/start` in the middle of the survey does not restart it. The router gives it to the current question's handler, which stores "/start" as the answer (`Handlers.StartMidSurveyIsAnAnswer`).
- Model selection takes any text other than `/model` as a model name, not only the offered names. A successful load clears the user's context, so survey progress is lost (`Handlers.ModelChoiceDiscardsSurvey`).
- Switching the model is a plain assignment to the module-level `model` (lab04/bot/handlers.py:64-65). Nothing serialises messages (see Left out).
- If loading fails, the exception propagates before any reply. The user stays in model selection and gets no new prompt.

## Model

| member | source | states |
|---|---|---|
| Text.Lower | lab04/bot/handlers.py:95 | lower-casing keeps the length, maps each character through the case mapping, and leaves no capital letter |
| Text.LowerIdempotent | lab04/Models/BaseModel.py:17 | lower-casing an already lower-cased name changes nothing |
| Text.ReplaceChar | lab02/test/main.py:157 | replacement keeps the length, changes exactly the occurrences of the replaced character, and none of them remains |
| Keyboard.CreateButtons | lab04/bot/utils.py:9-21 | the keyboard has one row, with one button per option in option order; each button's text and callback data equal its option |
| Keyboard.LabelsRoundTrip | lab04/bot/utils.py:19 | reading the labels back off the row gives the options exactly, and each button's callback data equals its text |
| Keyboard.EmptyOptionsGiveOneEmptyRow | lab04/bot/utils.py:19-20 | no options give a keyboard of one empty row |
| States.Next | lab04/bot/handlers.py:96-145 | each question but the last has a successor, which is the next state in declaration order; the last has none |
| States.KeysDistinct | lab04/bot/States.py:17-22 | two survey states store their answers under the same key only if they are the same state |
| Filters.IsCommand | lab04/bot/handlers.py:40 | aiogram's `Command(name)` filter: the first whitespace-separated word of the text is `/` followed by the name |
| Filters.StartCommandMatches | lab04/bot/handlers.py:75 | the bare text `/start` passes the `Command('start')` filter |
| Filters.ModelCommandMatches | lab04/bot/handlers.py:40 | the bare text `/model` passes the `Command('model')` filter |
| Filters.CommandsExclusive | lab04/bot/handlers.py:40-75 | no text passes both the `/model` and the `/start` filter |
| Filters.CommandWithArguments | lab04/bot/handlers.py:40 | a command preceded by spaces and followed by arguments still passes its filter |
| Handlers.Render | lab04/bot/handlers.py:17-37 | a missing table entry raises. The text is generated from the prompt exactly when the prompt is non-empty and a model is set; otherwise it is the fixed text or the "no text" notice. The keyboard is removed exactly when the button list is empty; otherwise it shows those buttons |
| Handlers.Route | lab04/bot/handlers.py:40-149 | each handler is chosen exactly when its filters pass and no earlier handler's do: `/model` in any state, then model selection, then `/start` with no state, then the current question; other messages go unhandled |
| Handlers.Summary | lab04/bot/handlers.py:157-166 | the summary can be built exactly when all six answers are stored; otherwise it raises on the first missing one in survey order |
| Handlers.SummaryLayout | lab04/bot/handlers.py:159-166 | with all answers stored, the summary is the header followed by six `label: answer` lines in survey order |
| Handlers.ChooseModelHandler | lab04/bot/handlers.py:40-53 | `/model` sends one prompt with the two model names as a one-row keyboard, enters model selection, and keeps the stored answers and the model |
| Handlers.SelectModelHandler | lab04/bot/handlers.py:56-72 | a name that loads becomes the lower-cased global model; the choice is confirmed and the context cleared. A name that fails to load changes nothing and raises |
| Handlers.StartSurveyHandler | lab04/bot/handlers.py:75-85 | `/start` shows the intro, then the first question, and enters the first question; a missing entry raises after what was already sent |
| Handlers.AnswerAndAdvance | lab04/bot/handlers.py:88-146 | a question before the last stores the lower-cased answer under its key, moves exactly one question on, and shows that question |
| Handlers.AnswerAndFinish | lab04/bot/handlers.py:149-168 | the last question stores its answer, sends the summary, shows the thank-you step and clears the context; each missing piece raises at its place |
| Handlers.AnswerHandler | lab04/bot/handlers.py:88-168 | every answer handler stores the answer and keeps the model; leaving the survey leaves an empty context |
| Handlers.Step | lab04/bot/handlers.py:40-168 | only a successful model choice changes the model; stored keys are never lost except by clearing; an unhandled message changes nothing |
| Handlers.StartMidSurveyIsAnAnswer | lab04/bot/handlers.py:75-95 | `/start` during the survey goes to the current question's handler and is stored as an answer |
| Handlers.ModelChoiceDiscardsSurvey | lab04/bot/handlers.py:40-72 | `/model` then a loadable name, sent mid-survey, leave an empty context and the lower-cased name as the model |
| SurveyInvariant.LastAnswerCompletesSummary | lab04/bot/handlers.py:156-166 | at the last question of a well-formed context, the summary finds all six answers |
| SurveyInvariant.ChooseModelIsSafe | lab04/bot/handlers.py:40-53 | `/model` keeps a context well-formed: any prefix of the survey's answers may be carried into model selection |
| SurveyInvariant.SelectModelIsSafe | lab04/bot/handlers.py:56-72 | model selection keeps a context well-formed; its only exception is a failed load |
| SurveyInvariant.StartSurveyIsSafe | lab04/bot/handlers.py:75-85 | `/start` keeps a context well-formed; with a complete table it raises nothing |
| SurveyInvariant.AdvanceIsSafe | lab04/bot/handlers.py:88-146 | an answer before the last keeps the context well-formed: the stored keys are those of the questions already passed |
| SurveyInvariant.FinishIsSafe | lab04/bot/handlers.py:149-168 | the last answer never misses an answer in the summary, and leaves a well-formed context |
| SurveyInvariant.AnswerIsSafe | lab04/bot/handlers.py:88-168 | every answer has a safe outcome |
| SurveyInvariant.StepIsSafe | lab04/bot/handlers.py:40-168 | every message to a well-formed context has a safe outcome |
| SurveyInvariant.StepPreservesWellFormed | lab04/bot/handlers.py:40-168 | every handler maps a well-formed context to a well-formed one |
| SurveyInvariant.WellFormedStepRaisesOnlyLoadFailures | lab04/bot/handlers.py:157-166 | from a well-formed context the summary never misses an answer; with a complete table, the only modelled exception is a failed load during model selection (sending is assumed to succeed) |
| Dispatcher.Dispatch | lab04/bot/handlers.py:64-65 | one message changes only its sender's context; the global model changes only by a successful model choice |
| Dispatcher.Run | lab04/bot/handlers.py:40-168 | messages are handled one after another, each by the router on its sender's context; the replies are collected in order |
| Dispatcher.RunLeavesOthersAlone | lab04/bot/handlers.py:56-72 | a user who sends no message in a run keeps their context, whatever others send |
| Dispatcher.RunKeepsModel | lab04/bot/handlers.py:64-65 | once a model is set, some model stays set |
| Dispatcher.RunPreservesWellFormed | lab04/bot/handlers.py:40-168 | any run of messages keeps every user's context well-formed |
| Dispatcher.ReachableRaisesOnlyLoadFailures | lab04/bot/handlers.py:157-166 | after any history from start-up, no message misses an answer in the summary; with a complete table, a message can only fail, among the modelled exceptions, by a failed model load (sending is assumed to succeed) |
| Dispatcher.StartIgnoresGenerator | lab04/bot/handlers.py:75-85 | without a model, `/start` does not depend on the generator |
| Dispatcher.AnswerIgnoresGenerator | lab04/bot/handlers.py:88-168 | without a model, answers do not depend on the generator |
| Dispatcher.StepIgnoresGeneratorWithoutModel | lab04/bot/handlers.py:31-32 | without a model, no message's outcome depends on the generator |
| Dispatcher.RunIgnoresGeneratorWithoutModel | lab04/bot/handlers.py:13 | as long as no model is chosen, a whole run is the same for every generator: prompts are never used |
| Scenarios.StartFromFresh | lab04/bot/handlers.py:75-85 | `/start` from an empty context shows the intro and the first question and enters the first question with no answers |
| Scenarios.AnswerAndAsk | lab04/bot/handlers.py:88-146 | through the dispatcher, an answer before the last is stored and the next question is shown |
| Scenarios.LastQuestionRunsFinish | lab04/bot/handlers.py:149-150 | at the last question, every message other than `/model` goes to `process_additional_comments` |
| Scenarios.AnswerLast | lab04/bot/handlers.py:149-168 | through the dispatcher, the last answer of a well-formed context sends the summary and thank-you without error, and clears the context |
| ParameterGrid.Keys | lab02/test/main.py:49-68 | an entry's keys are exactly the keys it holds a value for |
| ParameterGrid.CreateParameterCombinations | lab02/test/main.py:10-71 | the generator returns twelve entries, the i-th being block i/4's `max_length` with the i%4-th of three sampling temperatures, or greedy |
| ParameterGrid.SampledShaped | lab02/test/main.py:49-58 | a sampling entry has the shared constants, a temperature from the list, top_k 20, top_p 0.8, and every key |
| ParameterGrid.GreedyShaped | lab02/test/main.py:62-68 | a greedy entry has the shared constants and none of temperature, top_k and top_p |
| ParameterGrid.EntryShape | lab02/test/main.py:44-69 | every grid entry has the sampling or greedy shape |
| ParameterGrid.GridEntries | lab02/test/main.py:33-69 | the grid has 3 × (3 + 1) = 12 entries, all shaped |
| ParameterGrid.GridOrder | lab02/test/main.py:44-60 | `max_length` never decreases; within one `max_length`, sampling entries come first, with increasing temperature, and the greedy entry comes last |
| ParameterGrid.GridBlocks | lab02/test/main.py:44-69 | the grid is three blocks of four entries with `max_length` 100, 150 and 200 |
| ParameterGrid.Occurrences | lab02/test/main.py:44-69 | the count of entries with a given `max_length` is at most the length, and is zero exactly when no entry has that `max_length` |
| ParameterGrid.EachMaxLengthFourTimes | lab02/test/main.py:44-69 | each listed `max_length` occurs in exactly four entries, and no other value occurs |
| ParameterGrid.CleanAnswer | lab02/test/main.py:157 | a cleaned answer has the generated text's length; each U+00A0 becomes a plain space, so none remains, and every other character is kept |
| ParameterGrid.Aggregate | lab02/test/main.py:145-162 | one result per parameter entry in order. Each result has one detail per prompt in order; the detail holds the prompt and the cleaned generated answer, which contains no U+00A0 |
| ParameterGrid.Experiment | lab02/test/main.py:136-162 | the experiment produces twelve results in grid order, each with the three prompts answered |
| ModelLoader.LoaderAsWritten | lab04/Models/BaseModel.py:17-20 | the loader class as the code chooses it: the Llama class when `"Llama"` occurs in the lower-cased name, the generic class otherwise |
| ModelLoader.Loader | lab04/Models/BaseModel.py:17-20 | the corrected choice: the Llama class when `"llama"` occurs in the lower-cased name |
| ModelLoader.LlamaTestNeverHolds | lab04/Models/BaseModel.py:17-20 | the test as written never picks the Llama class, whatever the name |
| ModelLoader.LlamaNamesUseLlamaClass | lab04/Models/BaseModel.py:17-20 | with both sides lower-cased, a name containing "Llama" picks the Llama class |
| ModelLoader.LoadersDisagree | lab04/Models/BaseModel.py:17-20 | for every name containing "Llama", the written test and the intended one pick different classes |
| ModelLoader.VikhrLlamaLoader | lab04/bot/handlers.py:65 | the offered Llama checkpoint, lower-cased as model selection passes it, is loaded with the generic class as written and with the Llama class as intended |

## Findings

| source | as written | input that shows it | evidently intended | confidence | as-written member | corrected member |
|---|---|---|---|---|---|---|
| lab04/Models/BaseModel.py:17 | `"Llama" in model_name.lower()` looks for a capital L in a lower-cased string, so it is never true | "Vikhrmodels/Vikhr-Llama-3.2-1B-Instruct", one of the two names the bot offers, is loaded with `AutoModelForCausalLM` | `"llama" in model_name.lower()`, so that Llama checkpoints use `LlamaForCausalLM` | high; follows from the definition of lower-casing; not executed | ModelLoader.LlamaTestNeverHolds | ModelLoader.LlamaNamesUseLlamaClass |

The handlers do not depend on which class loads a model. They see only whether the load succeeds (`Env.loads`), so the rest of the model is the same under either loader.

## Left out

- The aiogram transport, polling, `async` scheduling and concurrency: messages are handled one at a time, in order.
- Sending: every `message.answer` succeeds in the model. Telegram rejects an empty text and one longer than 4096 characters, and aiogram then raises `TelegramBadRequest`. The summary repeats six free-text answers and can exceed that limit. The bot then raises at lab04/bot/handlers.py:159, before the thank-you step and before `state.clear()`, so the user stays at `additional_comments` with all answers stored. Every later message except `/model` goes to the same handler and fails again. SurveyInvariant.WellFormedStepRaisesOnlyLoadFailures, Dispatcher.ReachableRaisesOnlyLoadFailures and Scenarios.AnswerLast hold only under this assumption.
- Non-text messages: a message without text is not modelled. aiogram's `Command` filter also reads a caption, so a photo captioned `/model` runs `choose_model`, and one captioned `/start` with no state runs `start_survey`; neither calls `.lower()`. With no state and no command such a message goes unhandled. Only `model_selection` and the six `process_*` handlers call `.lower()` on the missing text, and they raise `AttributeError` before changing anything.
- Filters.IsCommand: a command with a bot mention (`/start@botname`, or a bare `/start@`) and custom prefixes are not matched, while aiogram matches them; only the plain `/name` first word is modelled.
- Text.Lower: lower-cases ASCII and the basic Cyrillic capitals U+0400–U+042F only, not the whole Unicode case mapping of Python's `str.lower()`.
- `load_survey_data` and the JSON survey file: the table is a parameter, and `Complete` states which entries the bot needs.
- `BaseModel` and `RuGPT3` internals (tokenizers, `from_pretrained`, parameter files): loading is the abstract predicate `Env.loads`. Generation is the deterministic function `Env.generate` (or the `generate` parameter in the grid), and its own exceptions are not modelled.
- Floating-point values: temperatures and `top_p` are exact decimals (`real`).
- `save_results_to_json`, the progress counter printed in `main`, and the model and tokenizer set-up in `main`: output and I/O only.
- `generate_text_from_params`: it is the abstract `generate` of the aggregation loop.
- The lab01 translators and pages, `CourseWork/main.py`, `lab02/frontend/main.py` and `lab02/ChatLogger`: outside the modelled core.
- A whole conversation as one lemma: the survey is stated one message at a time (`Scenarios`, `SurveyInvariant`) plus invariants over any run (`Dispatcher`), not as a single closed-form run of seven messages.

=== FILE: dispatcher.dfy ===
/** The dispatcher around the handlers: one FSM context per user, kept in
    memory and created empty on a user's first message, and the single global
    model every user's messages share. */
module Dispatcher {

  import opened Wrappers
  import opened Text
  import opened States
  import opened Filters
  import opened Handlers
  import opened SurveyInvariant

  /** Whose context a message belongs to: aiogram's default FSM strategy keys
      a context by chat and user. */
  datatype UserKey = UserKey(chat: int, user: int)

  /** All users' contexts and the global model (`None` until one is chosen). */
  datatype World = World(sessions: map<UserKey, Session>, model: Option<string>)

  /** One incoming text message and its sender. */
  datatype Event = Event(user: UserKey, text: string)

  /** The bot at start-up: no contexts, no model. */
  function Initial(): World {
    World(map[], None)
  }

  /** A user's context; a user never seen before has the empty one. */
  function SessionOf(w: World, u: UserKey): Session {
    if u in w.sessions then w.sessions[u] else Fresh
  }

  /** Handle one message: run the handlers on the sender's context and store
      the result. No other user's context changes; the global model changes
      only when the sender's message is a model choice that loads. */
  function Dispatch(env: Env, w: World, e: Event): (r: (World, Outcome))
    ensures SessionOf(r.0, e.user) == r.1.session && r.0.model == r.1.model
    ensures forall v :: v != e.user ==> SessionOf(r.0, v) == SessionOf(w, v)
    ensures r.0.model == w.model ||
      (SessionOf(w, e.user).state == Some(ModelSelection) && r.0.model == Some(Lower(e.text)) && env.loads(Lower(e.text)))
  {
    var out := Step(env, SessionOf(w, e.user), w.model, e.text);
    (World(w.sessions[e.user := out.session], out.model), out)
  }

  /** Handle messages one after another; the result is the final state and
      every message sent, in order. */
  function Run(env: Env, w: World, events: seq<Event>): (r: (World, seq<Reply>))
    decreases |events|
  {
    if events == [] then (w, [])
    else
      var (w1, out) := Dispatch(env, w, events[0]);
      var (w2, replies) := Run(env, w1, events[1..]);
      (w2, out.replies + replies)
  }

  /** A user who sends none of the messages keeps their context, whatever
      other users do. */
  lemma {:induction false} RunLeavesOthersAlone(env: Env, w: World, events: seq<Event>, v: UserKey)
    requires forall i :: 0 <= i < |events| ==> events[i].user != v
    ensures SessionOf(Run(env, w, events).0, v) == SessionOf(w, v)
    decreases |events|
  {
    if events != [] {
      var w1 := Dispatch(env, w, events[0]).0;
      assert events[0].user != v;
      assert forall i :: 0 <= i < |events[1..]| ==> events[1..][i].user != v by {
        forall i | 0 <= i < |events[1..]| ensures events[1..][i].user != v {
          assert events[1..][i] == events[i + 1];
        }
      }
      RunLeavesOthersAlone(env, w1, events[1..], v);
    }
  }

  /** Once a model is chosen there is always one: a model is replaced, never removed. */
  lemma {:induction false} RunKeepsModel(env: Env, w: World, events: seq<Event>)
    requires w.model.Some?
    ensures Run(env, w, events).0.model.Some?
    decreases |events|
  {
    if events != [] {
      RunKeepsModel(env, Dispatch(env, w, events[0]).0, events[1..]);
    }
  }

  /** Every stored context is well-formed. */
  predicate AllWellFormed(w: World) {
    forall u :: u in w.sessions ==> WellFormed(w.sessions[u])
  }

  /** Any sequence of messages from start-up, by any users, leaves every
      context well-formed. */
  lemma {:induction false} RunPreservesWellFormed(env: Env, w: World, events: seq<Event>)
    requires AllWellFormed(w)
    ensures AllWellFormed(Run(env, w, events).0)
    decreases |events|
  {
    if events != [] {
      var e := events[0];
      var w1 := Dispatch(env, w, e).0;
      StepPreservesWellFormed(env, SessionOf(w, e.user), w.model, e.text);
      assert AllWellFormed(w1);
      RunPreservesWellFormed(env, w1, events[1..]);
    }
  }

  /** Whatever any users sent since start-up, the summary never misses an
      answer, and with a complete survey table the next message can only fail
      by choosing a model that does not load. */
  lemma ReachableRaisesOnlyLoadFailures(env: Env, history: seq<Event>, e: Event)
    ensures var w := Run(env, Initial(), history).0;
      var out := Dispatch(env, w, e).1;
      && (out.error.Some? ==> !out.error.value.MissingAnswer?)
      && (Complete(env.survey) && out.error.Some? ==> out.error == Some(LoadFailed(Lower(e.text))))
  {
    var w := Run(env, Initial(), history).0;
    RunPreservesWellFormed(env, Initial(), history);
    WellFormedStepRaisesOnlyLoadFailures(env, SessionOf(w, e.user), w.model, e.text);
  }

  /** Two environments that differ at most in what a model would generate. */
  ghost predicate SameButGenerator(env1: Env, env2: Env) {
    env1.survey == env2.survey && env1.loads == env2.loads
  }

  /** Without a model a step's page is its fixed text. */
  lemma RenderIgnoresGenerator(env1: Env, env2: Env, step: string)
    requires SameButGenerator(env1, env2)
    ensures Render(env1, None, step) == Render(env2, None, step)
  {
  }

  lemma StartIgnoresGenerator(env1: Env, env2: Env, session: Session)
    requires SameButGenerator(env1, env2)
    ensures StartSurveyHandler(env1, session, None) == StartSurveyHandler(env2, session, None)
  {
    RenderIgnoresGenerator(env1, env2, IntroStep);
    RenderIgnoresGenerator(env1, env2, OrderFrequency.Key());
  }

  lemma AnswerIgnoresGenerator(env1: Env, env2: Env, session: Session, s: SurveyState, text: string)
    requires SameButGenerator(env1, env2)
    ensures AnswerHandler(env1, session, None, s, text) == AnswerHandler(env2, session, None, s, text)
  {
    if s == AdditionalComments {
      RenderIgnoresGenerator(env1, env2, ThankYouStep);
      assert AnswerAndFinish(env1, session, None, text) == AnswerAndFinish(env2, session, None, text);
    } else {
      OrderIndex(s.Index() + 1);
      RenderIgnoresGenerator(env1, env2, SurveyOrder[s.Index() + 1].Key());
      assert AnswerAndAdvance(env1, session, None, s, text) == AnswerAndAdvance(env2, session, None, s, text);
    }
  }

  /** While no model is chosen, every message is answered without the model:
      the generator cannot influence anything the bot sends or stores. */
  lemma StepIgnoresGeneratorWithoutModel(env1: Env, env2: Env, session: Session, text: string)
    requires SameButGenerator(env1, env2)
    ensures Step(env1, session, None, text) == Step(env2, session, None, text)
  {
    match Route(session.state, text)
    case ChooseModel =>
    case SelectModel =>
    case StartSurvey => StartIgnoresGenerator(env1, env2, session);
    case Answer(s) => AnswerIgnoresGenerator(env1, env2, session, s, text);
    case Unhandled =>
  }

  /** As long as no model gets chosen, a whole run is the same whatever the
      generator: prompts are never used before a `/model` choice. */
  lemma {:induction false} RunIgnoresGeneratorWithoutModel(env1: Env, env2: Env, w: World, events: seq<Event>)
    requires SameButGenerator(env1, env2)
    requires w.model == None
    requires Run(env1, w, events).0.model == None
    ensures Run(env1, w, events) == Run(env2, w, events)
    decreases |events|
  {
    if events != [] {
      var e := events[0];
      StepIgnoresGeneratorWithoutModel(env1, env2, SessionOf(w, e.user), e.text);
      var w1 := Dispatch(env1, w, e).0;
      assert Dispatch(env1, w, e) == Dispatch(env2, w, e);
      assert Run(env1, w, events).0 == Run(env1, w1, events[1..]).0;
      if w1.model.Some? {
        RunKeepsModel(env1, w1, events[1..]);
      }
      RunIgnoresGeneratorWithoutModel(env1, env2, w1, events[1..]);
    }
  }
}

=== FILE: filters.dfy ===
/** aiogram's `Command(name)` filter, which the router registers handlers
    with; the state filters are part of `Handlers.Route`. */
module Filters {

  import opened Text

  /** `Command(name)`: the first whitespace-separated word of the message is
      the prefix `/` followed by `name` (case-sensitive). */
  predicate IsCommand(text: string, name: string) {
    FirstWord(text) == "/" + name
  }

  /** `/model` and `/start` can never both match one message. */
  lemma CommandsExclusive(text: string)
    ensures !(IsCommand(text, "model") && IsCommand(text, "start"))
  {
    assert ("/" + "model")[1] != ("/" + "start")[1];
  }

  /** A word followed by whitespace (or by nothing) is what `TakeWord` reads. */
  lemma {:induction false} TakeWordStopsAtSpace(word: string, rest: string)
    requires forall i :: 0 <= i < |word| ==> !IsSpace(word[i])
    requires rest == [] || IsSpace(rest[0])
    ensures TakeWord(word + rest) == word
  {
    if word != [] {
      assert (word + rest)[1..] == word[1..] + rest;
      TakeWordStopsAtSpace(word[1..], rest);
    }
  }

  /** Arguments after the command and leading blanks do not stop it matching. */
  lemma CommandWithArguments(name: string, args: string)
    requires forall i :: 0 <= i < |name| ==> !IsSpace(name[i])
    ensures IsCommand(" /" + name + " " + args, name)
  {
    var text := " /" + name + " " + args;
    var command := "/" + name;
    assert forall i :: 0 <= i < |command| ==> !IsSpace(command[i]) by {
      forall i | 0 <= i < |command| ensures !IsSpace(command[i]) {
        if i > 0 {
          assert command[i] == name[i - 1];
        }
      }
    }
    assert TrimStart(text) == command + (" " + args) by {
      assert text[0] == ' ' && text[1..] == command + (" " + args);
      assert TrimStart(text) == TrimStart(text[1..]);
      assert text[1..][0] == '/';
    }
    TakeWordStopsAtSpace(command, " " + args);
  }

  /** The bare `/start` command matches its filter. */
  lemma StartCommandMatches()
    ensures IsCommand("/start", "start")
  {
    assert TrimStart("/start") == "/start";
    TakeWordStopsAtSpace("/start", []);
    assert "/start" + [] == "/start";
  }

  /** The bare `/model` command matches its filter. */
  lemma ModelCommandMatches()
    ensures IsCommand("/model", "model")
  {
    assert TrimStart("/model") == "/model";
    TakeWordStopsAtSpace("/model", []);
    assert "/model" + [] == "/model";
  }
}

=== FILE: grid.dfy ===
/** The generation-parameter experiment of `lab02/test/main.py`: the grid of
    parameter dictionaries and the loop that collects one generated answer per
    parameter entry and prompt. The language model itself is a parameter. */
module ParameterGrid {

  import opened Wrappers
  import opened Text

  /** One parameter dictionary. The optional fields are the keys only the
      sampling entries carry. */
  datatype Params = Params(
    maxLength: int,
    temperature: Option<real>,
    doSample: bool,
    numBeams: int,
    numReturnSequences: int,
    noRepeatNgramSize: int,
    topK: Option<int>,
    topP: Option<real>)

  /** The keys a parameter dictionary can hold. */
  datatype ParamKey =
    | MaxLengthKey | TemperatureKey | DoSampleKey | NumBeamsKey
    | NumReturnSequencesKey | NoRepeatNgramSizeKey | TopKKey | TopPKey
  {
    /** The keys only the sampling entries carry. */
    predicate SamplingOnly() {
      this == TemperatureKey || this == TopKKey || this == TopPKey
    }

    /** The key's place in the dictionary literals. */
    function Position(): (i: nat)
      ensures i < |KeyOrder| && KeyOrder[i] == this
    {
      match this
      case MaxLengthKey => 0
      case TemperatureKey => 1
      case DoSampleKey => 2
      case NumBeamsKey => 3
      case NumReturnSequencesKey => 4
      case NoRepeatNgramSizeKey => 5
      case TopKKey => 6
      case TopPKey => 7
    }
  }

  /** The order of the keys in the dictionary literals of `create_parameter_combinations`. */
  const KeyOrder: seq<ParamKey> := [
    MaxLengthKey, TemperatureKey, DoSampleKey, NumBeamsKey,
    NumReturnSequencesKey, NoRepeatNgramSizeKey, TopKKey, TopPKey]

  /** Whether `p`'s dictionary holds key `k`: the five shared keys always,
      each sampling key exactly when its field is set. */
  predicate Holds(p: Params, k: ParamKey) {
    match k
    case TemperatureKey => p.temperature.Some?
    case TopKKey => p.topK.Some?
    case TopPKey => p.topP.Some?
    case _ => true
  }

  /** The keys of `order` that `p` holds, in that order. */
  function HeldKeys(p: Params, order: seq<ParamKey>): (keys: seq<ParamKey>)
    ensures |keys| <= |order|
    ensures forall k :: k in keys <==> k in order && Holds(p, k)
  {
    if order == [] then []
    else (if Holds(p, order[0]) then [order[0]] else []) + HeldKeys(p, order[1..])
  }

  /** The dictionary's keys, in the order its literal lists them. */
  function Keys(p: Params): (keys: seq<ParamKey>)
    ensures forall k :: k in keys <==> Holds(p, k)
  {
    forall k: ParamKey
      ensures k in KeyOrder
    {
      assert KeyOrder[k.Position()] == k;
    }
    HeldKeys(p, KeyOrder)
  }

  const MaxLengths: seq<int> := [100, 150, 200]
  /** Decimal values; Python's binary floating point is not modelled. */
  const Temperatures: seq<real> := [0.8, 1.3, 2.0]
  const DoSample: seq<bool> := [true, false]
  const NumBeams := 3
  const NumReturnSequences := 1
  const NoRepeatNgramSize := 2
  const TopK := 20
  const TopP: real := 0.8

  /** The entry of a sampling run. */
  function Sampled(ml: int, temp: real): Params {
    Params(ml, Some(temp), true, NumBeams, NumReturnSequences, NoRepeatNgramSize, Some(TopK), Some(TopP))
  }

  /** The entry of a run without sampling, which leaves out the three sampling keys. */
  function Greedy(ml: int): Params {
    Params(ml, None, false, NumBeams, NumReturnSequences, NoRepeatNgramSize, None, None)
  }

  /** Every `max_length` contributes one entry per temperature and one without sampling. */
  const BlockSize := |Temperatures| + 1
  const GridSize := |MaxLengths| * BlockSize

  /** Entry `i` of the grid in closed form: block `i / 4` is the `max_length`,
      and within a block the three temperatures in order, then no sampling. */
  function Entry(i: nat): (p: Params)
    requires i < GridSize
  {
    var ml := MaxLengths[i / BlockSize];
    var j := i % BlockSize;
    if j < |Temperatures| then Sampled(ml, Temperatures[j]) else Greedy(ml)
  }

  lemma BlockPosition(a: nat, t: nat)
    requires t < BlockSize
    ensures (BlockSize * a + t) / BlockSize == a && (BlockSize * a + t) % BlockSize == t
  {
  }

  /** `create_parameter_combinations`: the nested loops over `max_length`,
      `do_sample` and, when sampling, `temperature`. */
  method CreateParameterCombinations() returns (result: seq<Params>)
    ensures |result| == GridSize
    ensures forall i :: 0 <= i < |result| ==> result[i] == Entry(i)
  {
    result := [];
    for a := 0 to |MaxLengths|
      invariant |result| == BlockSize * a
      invariant forall i :: 0 <= i < |result| ==> result[i] == Entry(i)
    {
      var ml := MaxLengths[a];
      for b := 0 to |DoSample|
        invariant |result| == BlockSize * a + (if b == 0 then 0 else if b == 1 then |Temperatures| else BlockSize)
        invariant forall i :: 0 <= i < |result| ==> result[i] == Entry(i)
      {
        if DoSample[b] {
          for t := 0 to |Temperatures|
            invariant |result| == BlockSize * a + t
            invariant forall i :: 0 <= i < |result| ==> result[i] == Entry(i)
          {
            BlockPosition(a, t);
            result := result + [Sampled(ml, Temperatures[t])];
          }
        } else {
          BlockPosition(a, |Temperatures|);
          result := result + [Greedy(ml)];
        }
      }
    }
  }

  /** The grid: the list `create_parameter_combinations` returns. */
  predicate IsGrid(ps: seq<Params>) {
    |ps| == GridSize && forall i :: 0 <= i < |ps| ==> ps[i] == Entry(i)
  }

  /** The shape every entry has: a `max_length` of the list, the shared
      constants, and the three sampling keys present, with their fixed values,
      exactly when sampling. */
  predicate Shaped(p: Params) {
    && p.maxLength in MaxLengths
    && p.numBeams == 3 && p.numReturnSequences == 1 && p.noRepeatNgramSize == 2
    && (p.doSample <==> p.temperature.Some?)
    && (p.doSample <==> p.topK == Some(20))
    && (p.doSample <==> p.topP == Some(0.8))
    && (p.doSample ==> p.temperature.value in Temperatures)
    && (forall k :: k in Keys(p) <==> p.doSample || !k.SamplingOnly())
  }

  lemma SampledShaped(ml: int, temp: real)
    requires ml in MaxLengths && temp in Temperatures
    ensures Shaped(Sampled(ml, temp))
  {
    var p := Sampled(ml, temp);
    forall k
      ensures k in Keys(p) <==> p.doSample || !k.SamplingOnly()
    {
      assert k in Keys(p) <==> Holds(p, k);
    }
  }

  lemma GreedyShaped(ml: int)
    requires ml in MaxLengths
    ensures Shaped(Greedy(ml))
  {
    var p := Greedy(ml);
    forall k
      ensures k in Keys(p) <==> p.doSample || !k.SamplingOnly()
    {
      assert k in Keys(p) <==> Holds(p, k);
    }
  }

  /** Every entry of the grid is shaped. */
  lemma EntryShape(i: nat)
    requires i < GridSize
    ensures Shaped(Entry(i))
  {
    var b, j := i / BlockSize, i % BlockSize;
    assert 0 <= b < |MaxLengths| && 0 <= j < BlockSize;
    if j < |Temperatures| {
      SampledShaped(MaxLengths[b], Temperatures[j]);
    } else {
      GreedyShaped(MaxLengths[b]);
    }
  }

  /** Twelve entries, each shaped. */
  lemma GridEntries(ps: seq<Params>)
    requires IsGrid(ps)
    ensures |ps| == 12
    ensures forall i :: 0 <= i < |ps| ==> Shaped(ps[i])
  {
    forall i | 0 <= i < |ps|
      ensures Shaped(ps[i])
    {
      EntryShape(i);
    }
  }

  /** Grid order: `max_length` never decreases, and within one `max_length`
      the sampling entries come first, by increasing temperature. */
  lemma GridOrder(ps: seq<Params>, i: nat, j: nat)
    requires IsGrid(ps) && i < j < |ps|
    ensures ps[i].maxLength <= ps[j].maxLength
    ensures ps[i].maxLength == ps[j].maxLength ==> ps[i].doSample
    ensures ps[i].maxLength == ps[j].maxLength && ps[j].doSample ==>
      ps[i].temperature.value < ps[j].temperature.value
  {
    assert i / BlockSize <= j / BlockSize;
    assert i / BlockSize == j / BlockSize ==> i % BlockSize < j % BlockSize;
  }

  /** The number of entries whose `max_length` is `ml`. */
  function Occurrences(ps: seq<Params>, ml: int): (n: nat)
    ensures n <= |ps|
    ensures n == 0 <==> forall i :: 0 <= i < |ps| ==> ps[i].maxLength != ml
  {
    if ps == [] then 0
    else
      assert forall i :: 1 <= i < |ps| ==> ps[i] == ps[1..][i - 1];
      (if ps[0].maxLength == ml then 1 else 0) + Occurrences(ps[1..], ml)
  }

  lemma {:induction false} OccurrencesAppend(xs: seq<Params>, ys: seq<Params>, ml: int)
    ensures Occurrences(xs + ys, ml) == Occurrences(xs, ml) + Occurrences(ys, ml)
  {
    if xs != [] {
      assert (xs + ys)[0] == xs[0] && (xs + ys)[1..] == xs[1..] + ys;
      OccurrencesAppend(xs[1..], ys, ml);
    } else {
      assert xs + ys == ys;
    }
  }

  predicate AllOfMaxLength(ps: seq<Params>, m: int) {
    forall i :: 0 <= i < |ps| ==> ps[i].maxLength == m
  }

  lemma {:induction false} OccurrencesUniform(ps: seq<Params>, m: int, ml: int)
    requires AllOfMaxLength(ps, m)
    ensures Occurrences(ps, ml) == if ml == m then |ps| else 0
  {
    if ps != [] {
      OccurrencesUniform(ps[1..], m, ml);
    }
  }

  /** The grid is three blocks of four, one per `max_length`. */
  lemma GridBlocks(ps: seq<Params>)
    requires IsGrid(ps)
    ensures ps == ps[..4] + ps[4..8] + ps[8..]
    ensures AllOfMaxLength(ps[..4], 100)
    ensures AllOfMaxLength(ps[4..8], 150)
    ensures AllOfMaxLength(ps[8..], 200)
  {
    forall t | 0 <= t < 4 ensures ps[..4][t].maxLength == 100 {
      BlockPosition(0, t);
      assert ps[..4][t] == ps[BlockSize * 0 + t];
    }
    forall t | 0 <= t < 4 ensures ps[4..8][t].maxLength == 150 {
      BlockPosition(1, t);
      assert ps[4..8][t] == ps[BlockSize * 1 + t];
    }
    forall t | 0 <= t < 4 ensures ps[8..][t].maxLength == 200 {
      BlockPosition(2, t);
      assert ps[8..][t] == ps[BlockSize * 2 + t];
    }
  }

  /** Each `max_length` value occurs in exactly four entries, and no other value occurs. */
  lemma EachMaxLengthFourTimes(ps: seq<Params>, ml: int)
    requires IsGrid(ps)
    ensures Occurrences(ps, ml) == if ml in MaxLengths then 4 else 0
  {
    GridBlocks(ps);
    var b0, b1, b2 := ps[..4], ps[4..8], ps[8..];
    OccurrencesAppend(b0 + b1, b2, ml);
    OccurrencesAppend(b0, b1, ml);
    OccurrencesUniform(b0, 100, ml);
    OccurrencesUniform(b1, 150, ml);
    OccurrencesUniform(b2, 200, ml);
  }

  /** One `"Текст"`/`"Ответ"` pair of the results file. */
  datatype Detail = Detail(text: string, answer: string)

  /** One result: the parameter dictionary (`"Параметры"`) and its details (`"Детали"`). */
  datatype GenerationResult = GenerationResult(parameters: Params, details: seq<Detail>)

  const NoBreakSpace: char := '\U{00A0}'

  /** The stored answer: the generated text with every no-break space made a plain space. */
  function CleanAnswer(generated: string): (answer: string)
    ensures |answer| == |generated|
    ensures NoBreakSpace !in answer
    ensures forall i :: 0 <= i < |generated| && generated[i] == NoBreakSpace ==> answer[i] == ' '
    ensures forall i :: 0 <= i < |generated| && generated[i] != NoBreakSpace ==> answer[i] == generated[i]
  {
    ReplaceChar(generated, NoBreakSpace, ' ')
  }

  /** `details` holds one entry per prompt, in prompt order, each answer being
      the cleaned text generated for that prompt with parameters `p`. */
  predicate Answered(details: seq<Detail>, p: Params, prompts: seq<string>, generate: (Params, string) -> string) {
    |details| == |prompts|
    && forall j :: 0 <= j < |prompts| ==> details[j] == Detail(prompts[j], CleanAnswer(generate(p, prompts[j])))
  }

  /** The result loop of `main`: for each parameter entry in order, one
      detail per prompt in order. `generate` stands for `generate_text_from_params`. */
  method Aggregate(paramsList: seq<Params>, prompts: seq<string>, generate: (Params, string) -> string)
    returns (results: seq<GenerationResult>)
    ensures |results| == |paramsList|
    ensures forall i :: 0 <= i < |results| ==> results[i].parameters == paramsList[i]
    ensures forall i :: 0 <= i < |results| ==> Answered(results[i].details, paramsList[i], prompts, generate)
    ensures forall i :: 0 <= i < |results| ==> |results[i].details| == |prompts|
    ensures forall i, j :: 0 <= i < |results| && 0 <= j < |results[i].details| ==>
      results[i].details[j].text == prompts[j] && NoBreakSpace !in results[i].details[j].answer
  {
    results := [];
    for k := 0 to |paramsList|
      invariant |results| == k
      invariant forall i :: 0 <= i < k ==> results[i].parameters == paramsList[i]
      invariant forall i :: 0 <= i < k ==> Answered(results[i].details, paramsList[i], prompts, generate)
    {
      var params := paramsList[k];
      var details: seq<Detail> := [];
      for j := 0 to |prompts|
        invariant |details| == j
        invariant forall m :: 0 <= m < j ==> details[m] == Detail(prompts[m], CleanAnswer(generate(params, prompts[m])))
      {
        var generated := generate(params, prompts[j]);
        details := details + [Detail(prompts[j], CleanAnswer(generated))];
      }
      results := results + [GenerationResult(params, details)];
    }
  }

  const Prompts: seq<string> := [
    "Системы обнаружения мошенничества с кредитными картами приобретают все большее значение",
    "Чтобы защититься от кражи банковских карт",
    "Банковские карты имеют широкий спектр применения в различных областях"]

  /** The experiment `main` runs: the grid against the three prompts, twelve
      results of three details each, in grid order. */
  method Experiment(generate: (Params, string) -> string) returns (results: seq<GenerationResult>)
    ensures |results| == 12
    ensures forall i :: 0 <= i < |results| ==> results[i].parameters == Entry(i) && |results[i].details| == 3
    ensures forall i :: 0 <= i < |results| ==> Answered(results[i].details, Entry(i), Prompts, generate)
  {
    var paramsList := CreateParameterCombinations();
    results := Aggregate(paramsList, Prompts, generate);
  }
}

=== FILE: handlers.dfy ===
/** The survey bot of lab04/bot/handlers.py: rendering a survey step, the
    handlers registered on the router, and the order in which the router
    tries them. One call of `Step` is one incoming text message of one user. */
module Handlers {

  import opened Wrappers
  import opened Text
  import opened Keyboard
  import opened States
  import opened Filters
  import ModelLoader

  /** One entry of the survey table; `None` marks a key absent from the entry. */
  datatype StepDef = StepDef(text: Option<string>, buttons: Option<seq<string>>, prompt: Option<string>)

  /** What the bot sends with a message: nothing about the keyboard, a request
      to remove it, or a keyboard to show. */
  datatype Markup = Unchanged | RemoveKeyboard | ShowKeyboard(keyboard: ReplyKeyboard)

  /** One outgoing message. */
  datatype Reply = Reply(text: string, markup: Markup)

  /** What the handlers read but never change: the survey table loaded at
      import time, whether a model name can be loaded, and the text a loaded
      model generates for a prompt. */
  datatype Env = Env(
    survey: map<string, StepDef>,
    loads: string -> bool,
    generate: (string, string) -> string)

  /** A user's FSM context: the current state (`None` before and after the
      survey) and the data stored with `update_data`. */
  datatype Session = Session(state: Option<FsmState>, data: map<string, string>)

  /** The context of a user who has not written yet, and the one `state.clear()` leaves. */
  const Fresh: Session := Session(None, map[])

  /** The exceptions a handler can raise part-way through. */
  datatype Error =
    | MissingStep(step: string)      // KeyError on `survey_data[step]`
    | MissingAnswer(key: string)     // KeyError on `user_data[key]` in the summary
    | LoadFailed(name: string)       // the model named `name` could not be loaded

  /** The effect of one message: the user's new context, the global model,
      the messages sent (in order) and the exception that stopped the handler,
      if any. Effects that happened before an exception stand. */
  datatype Outcome = Outcome(session: Session, model: Option<string>, replies: seq<Reply>, error: Option<Error>)

  const NoTextNotice: string := "Ошибка: нет текста для этого шага"
  const ChooseModelText: string := "Выберите модель"
  const ModelChoices: seq<string> := [ModelLoader.RuGpt3, ModelLoader.VikhrLlama]
  const ChosenPrefix: string := "Вы выбрали модель - "
  const IntroStep: string := "intro"
  const ThankYouStep: string := "thank_you"
  const SummaryHeader: string := "Вот ваши ответы:\n\n"

  /** The summary line label of each question, in the order the summary lists them. */
  const SummaryRows: seq<(SurveyState, string)> := [
    (OrderFrequency, "Частота заказов"),
    (OrderProcess, "Удобство оформления"),
    (DeliverySpeed, "Скорость доставки"),
    (DeliveryQuality, "Качество доставки"),
    (OverallSatisfaction, "Общая удовлетворенность"),
    (AdditionalComments, "Комментарии")]

  /** A step's text comes from the model exactly when the step has a non-empty
      prompt and a model has been chosen (`if prompt and model`). */
  predicate UsesModel(d: StepDef, model: Option<string>) {
    d.prompt.Some? && d.prompt.value != "" && model.Some?
  }

  /** `handle_survey_step`: the message that shows survey step `step`. */
  function Render(env: Env, model: Option<string>, step: string): (r: Result<Reply, Error>)
    ensures r.Failure? <==> step !in env.survey
    ensures r.Failure? ==> r.error == MissingStep(step)
    ensures r.Success? && UsesModel(env.survey[step], model) ==>
      r.value.text == env.generate(model.value, env.survey[step].prompt.value)
    ensures r.Success? && !UsesModel(env.survey[step], model) ==>
      r.value.text == (if env.survey[step].text.Some? then env.survey[step].text.value else NoTextNotice)
    ensures r.Success? ==>
      (r.value.markup == RemoveKeyboard <==> env.survey[step].buttons.GetOr([]) == [])
    ensures r.Success? && r.value.markup != RemoveKeyboard ==>
      r.value.markup.ShowKeyboard? && |r.value.markup.keyboard.keyboard| == 1 &&
      Labels(r.value.markup.keyboard.keyboard[0]) == env.survey[step].buttons.value
  {
    if step !in env.survey then Failure(MissingStep(step))
    else
      var d := env.survey[step];
      var text := d.text.GetOr(NoTextNotice);
      var buttons := d.buttons.GetOr([]);
      var text := if UsesModel(d, model) then env.generate(model.value, d.prompt.value) else text;
      LabelsRoundTrip(buttons);
      Success(Reply(text, if buttons == [] then RemoveKeyboard else ShowKeyboard(CreateButtons(buttons))))
  }

  /** The handler that takes a message, in the order the router tries them. */
  datatype Handler = ChooseModel | SelectModel | StartSurvey | Answer(step: SurveyState) | Unhandled

  /** Router dispatch: the first registered handler whose filters all pass.
      `choose_model` has no state filter; `model_selection` and the six
      `process_*` handlers filter on the state only; `start_survey` needs both
      `/start` and the empty state. A message no handler takes is dropped. */
  function Route(state: Option<FsmState>, text: string): (h: Handler)
    ensures h == ChooseModel <==> IsCommand(text, "model")
    ensures h == SelectModel <==> !IsCommand(text, "model") && state == Some(ModelSelection)
    ensures h == StartSurvey <==> state == None && IsCommand(text, "start")
    ensures forall s :: h == Answer(s) <==> !IsCommand(text, "model") && state == Some(Survey(s))
    ensures h == Unhandled <==> state == None && !IsCommand(text, "model") && !IsCommand(text, "start")
  {
    CommandsExclusive(text);
    if IsCommand(text, "model") then ChooseModel
    else if state == Some(ModelSelection) then SelectModel
    else if IsCommand(text, "start") && state == None then StartSurvey
    else if state.Some? then Answer(state.value.step)
    else Unhandled
  }

  /** The summary lines for `rows`, one `label: answer` per row, joined by
      newlines; evaluating it raises a KeyError at the first row whose answer
      was never stored. */
  function SummaryLines(rows: seq<(SurveyState, string)>, data: map<string, string>): (r: Result<string, Error>)
    ensures r.Failure? <==> exists i :: 0 <= i < |rows| && rows[i].0.Key() !in data
    ensures r.Failure? ==> exists i :: 0 <= i < |rows| && rows[i].0.Key() !in data &&
                                      r.error == MissingAnswer(rows[i].0.Key()) &&
                                      forall j :: 0 <= j < i ==> rows[j].0.Key() in data
  {
    if rows == [] then Success("")
    else
      var (step, caption) := rows[0];
      if step.Key() !in data then Failure(MissingAnswer(step.Key()))
      else match SummaryLines(rows[1..], data)
        case Failure(e) =>
          assert forall i :: 1 <= i < |rows| ==> rows[i] == rows[1..][i - 1];
          Failure(e)
        case Success(rest) =>
          assert forall i :: 1 <= i < |rows| ==> rows[i] == rows[1..][i - 1];
          Success(caption + ": " + data[step.Key()] + (if |rows| > 1 then "\n" else "") + rest)
  }

  /** The summary `process_additional_comments` sends: it can be built exactly
      when all six answers are stored, and otherwise fails on the first
      question, in survey order, that has no answer. */
  function Summary(data: map<string, string>): (r: Result<string, Error>)
    ensures r.Success? <==> forall i :: 0 <= i < |SurveyOrder| ==> SurveyOrder[i].Key() in data
    ensures r.Failure? ==> exists i :: 0 <= i < |SurveyOrder| && SurveyOrder[i].Key() !in data &&
                                      r.error == MissingAnswer(SurveyOrder[i].Key()) &&
                                      forall j :: 0 <= j < i ==> SurveyOrder[j].Key() in data
  {
    assert forall i :: 0 <= i < |SurveyOrder| ==> SummaryRows[i].0 == SurveyOrder[i];
    match SummaryLines(SummaryRows, data)
    case Failure(e) => Failure(e)
    case Success(lines) => Success(SummaryHeader + lines)
  }

  /** The summary is the six-line message of the f-string in
      `process_additional_comments`: the
      header, then each question's label and stored answer in survey order. */
  lemma SummaryLayout(data: map<string, string>)
    requires forall s: SurveyState :: s.Key() in data
    ensures Summary(data) == Success(
      "Вот ваши ответы:\n\n" + (
      "Частота заказов: " + data[OrderFrequency.Key()] + "\n" + (
      "Удобство оформления: " + data[OrderProcess.Key()] + "\n" + (
      "Скорость доставки: " + data[DeliverySpeed.Key()] + "\n" + (
      "Качество доставки: " + data[DeliveryQuality.Key()] + "\n" + (
      "Общая удовлетворенность: " + data[OverallSatisfaction.Key()] + "\n" + (
      "Комментарии: " + data[AdditionalComments.Key()])))))))
  {
    var rows := SummaryRows;
    var l5 := "Комментарии: " + data[AdditionalComments.Key()];
    var l4 := "Общая удовлетворенность: " + data[OverallSatisfaction.Key()] + "\n" + l5;
    var l3 := "Качество доставки: " + data[DeliveryQuality.Key()] + "\n" + l4;
    var l2 := "Скорость доставки: " + data[DeliverySpeed.Key()] + "\n" + l3;
    var l1 := "Удобство оформления: " + data[OrderProcess.Key()] + "\n" + l2;
    var l0 := "Частота заказов: " + data[OrderFrequency.Key()] + "\n" + l1;
    assert rows[5..] == [(AdditionalComments, "Комментарии")];
    assert rows[5..][1..] == [];
    assert l5 + "" + "" == l5;
    assert "Комментарии" + ": " == "Комментарии: ";
    assert SummaryLines(rows[5..], data) == Success(l5);
    assert rows[4..][1..] == rows[5..];
    assert "Общая удовлетворенность" + ": " == "Общая удовлетворенность: ";
    assert SummaryLines(rows[4..], data) == Success(l4);
    assert rows[3..][1..] == rows[4..];
    assert "Качество доставки" + ": " == "Качество доставки: ";
    assert SummaryLines(rows[3..], data) == Success(l3);
    assert rows[2..][1..] == rows[3..];
    assert "Скорость доставки" + ": " == "Скорость доставки: ";
    assert SummaryLines(rows[2..], data) == Success(l2);
    assert rows[1..][1..] == rows[2..];
    assert "Удобство оформления" + ": " == "Удобство оформления: ";
    assert SummaryLines(rows[1..], data) == Success(l1);
    assert "Частота заказов" + ": " == "Частота заказов: ";
    assert SummaryLines(rows, data) == Success(l0);
    assert Summary(data) == Success(SummaryHeader + l0);
  }

  /** `choose_model`: show the two model names as buttons and wait for a choice.
      The stored answers are kept; only the state changes. */
  function ChooseModelHandler(session: Session, model: Option<string>): (r: Outcome)
    ensures r.session.state == Some(ModelSelection) && r.session.data == session.data
    ensures r.model == model && r.error == None
    ensures |r.replies| == 1 && r.replies[0].text == ChooseModelText
    ensures r.replies[0].markup.ShowKeyboard? && |r.replies[0].markup.keyboard.keyboard| == 1
    ensures Labels(r.replies[0].markup.keyboard.keyboard[0]) == ModelChoices
  {
    LabelsRoundTrip(ModelChoices);
    Outcome(session.(state := Some(ModelSelection)), model,
      [Reply(ChooseModelText, ShowKeyboard(CreateButtons(ModelChoices)))], None)
  }

  /** `model_selection`: any text, lower-cased, names the new global model.
      Loading it may fail, and then the exception leaves everything as it was;
      otherwise the choice is confirmed and the user's context is cleared. */
  function SelectModelHandler(env: Env, session: Session, model: Option<string>, text: string): (r: Outcome)
    ensures env.loads(Lower(text)) ==> r.model == Some(Lower(text)) && r.session == Fresh && r.error == None
    ensures env.loads(Lower(text)) ==> r.replies == [Reply(ChosenPrefix + Lower(text), RemoveKeyboard)]
    ensures !env.loads(Lower(text)) ==> r == Outcome(session, model, [], Some(LoadFailed(Lower(text))))
  {
    var name := Lower(text);
    if !env.loads(name) then Outcome(session, model, [], Some(LoadFailed(name)))
    else Outcome(Fresh, Some(name), [Reply(ChosenPrefix + name, RemoveKeyboard)], None)
  }

  /** `start_survey`: show the introduction, move to the first question and
      show it. A missing table entry raises where it is looked up. */
  function StartSurveyHandler(env: Env, session: Session, model: Option<string>): (r: Outcome)
    ensures r.model == model && r.session.data == session.data
    ensures IntroStep in env.survey ==> r.session.state == Some(Survey(SurveyOrder[0]))
    ensures IntroStep !in env.survey ==> r == Outcome(session, model, [], Some(MissingStep(IntroStep)))
    ensures IntroStep in env.survey && OrderFrequency.Key() in env.survey ==>
      r.error == None && r.replies == [Render(env, model, IntroStep).value, Render(env, model, OrderFrequency.Key()).value]
    ensures IntroStep in env.survey && OrderFrequency.Key() !in env.survey ==>
      r.error == Some(MissingStep(OrderFrequency.Key())) && r.replies == [Render(env, model, IntroStep).value]
  {
    match Render(env, model, IntroStep)
    case Failure(e) => Outcome(session, model, [], Some(e))
    case Success(intro) =>
      var started := session.(state := Some(Survey(OrderFrequency)));
      match Render(env, model, OrderFrequency.Key())
      case Failure(e) => Outcome(started, model, [intro], Some(e))
      case Success(question) => Outcome(started, model, [intro, question], None)
  }

  /** `process_order_frequency` to `process_overall_satisfaction`: store the
      lower-cased text under the current question's key, move one question on
      and show it. */
  function AnswerAndAdvance(env: Env, session: Session, model: Option<string>, step: SurveyState, text: string): (r: Outcome)
    requires step.Index() + 1 < |SurveyOrder|
    ensures var next := SurveyOrder[step.Index() + 1];
      && r.session == Session(Some(Survey(next)), session.data[step.Key() := Lower(text)])
      && (next.Key() in env.survey ==> r == Outcome(r.session, model, [Render(env, model, next.Key()).value], None))
      && (next.Key() !in env.survey ==> r == Outcome(r.session, model, [], Some(MissingStep(next.Key()))))
  {
    var next := SurveyOrder[step.Index() + 1];
    var moved := Session(Some(Survey(next)), session.data[step.Key() := Lower(text)]);
    match Render(env, model, next.Key())
    case Failure(e) => Outcome(moved, model, [], Some(e))
    case Success(question) => Outcome(moved, model, [question], None)
  }

  /** `process_additional_comments`: store the last answer, send the summary,
      show the thank-you step and clear the context. A missing answer or a
      missing thank-you step raises where it is looked up. */
  function AnswerAndFinish(env: Env, session: Session, model: Option<string>, text: string): (r: Outcome)
    ensures var data := session.data[AdditionalComments.Key() := Lower(text)];
      && (Summary(data).Failure? ==> r == Outcome(session.(data := data), model, [], Some(Summary(data).error)))
      && (Summary(data).Success? && ThankYouStep in env.survey ==>
            r == Outcome(Fresh, model, [Reply(Summary(data).value, Unchanged), Render(env, model, ThankYouStep).value], None))
      && (Summary(data).Success? && ThankYouStep !in env.survey ==>
            r == Outcome(session.(data := data), model, [Reply(Summary(data).value, Unchanged)], Some(MissingStep(ThankYouStep))))
  {
    var data := session.data[AdditionalComments.Key() := Lower(text)];
    var stored := session.(data := data);
    match Summary(data)
    case Failure(e) => Outcome(stored, model, [], Some(e))
    case Success(summary) =>
      var shown := Reply(summary, Unchanged);
      match Render(env, model, ThankYouStep)
      case Failure(e) => Outcome(stored, model, [shown], Some(e))
      case Success(thanks) => Outcome(Fresh, model, [shown, thanks], None)
  }

  /** The six `process_*` handlers: every one stores the answer and keeps the
      model; only the last can leave the survey, and then with an empty context. */
  function AnswerHandler(env: Env, session: Session, model: Option<string>, step: SurveyState, text: string): (r: Outcome)
    ensures r.model == model
    ensures r.session.data == session.data[step.Key() := Lower(text)] || (r.session == Fresh && r.error == None)
    ensures session.state != None && r.session.state == None ==> r.session == Fresh
  {
    match Next(step)
    case Some(_) => AnswerAndAdvance(env, session, model, step, text)
    case None =>
      assert step == AdditionalComments;
      AnswerAndFinish(env, session, model, text)
  }

  /** One incoming text message: route it and run the handler that takes it. */
  function Step(env: Env, session: Session, model: Option<string>, text: string): (r: Outcome)
    ensures r.model == model || (Route(session.state, text) == SelectModel && r.model == Some(Lower(text)) && env.loads(Lower(text)))
    ensures session.data.Keys <= r.session.data.Keys || r.session == Fresh
    ensures session.state != None && r.session.state == None ==> r.session == Fresh
    ensures Route(session.state, text) == Unhandled ==> r == Outcome(session, model, [], None)
  {
    match Route(session.state, text)
    case ChooseModel => ChooseModelHandler(session, model)
    case SelectModel => SelectModelHandler(env, session, model, text)
    case StartSurvey => StartSurveyHandler(env, session, model)
    case Answer(s) =>
      AnswerHandler(env, session, model, s, text)
    case Unhandled => Outcome(session, model, [], None)
  }

  /** A `/start` command sent in the middle of the survey does not start it
      again: it is taken as the answer to the current question. */
  lemma StartMidSurveyIsAnAnswer(env: Env, session: Session, model: Option<string>, s: SurveyState, start: string)
    requires session.state == Some(Survey(s)) && IsCommand(start, "start")
    ensures Route(session.state, start) == Answer(s)
    ensures Step(env, session, model, start).session.data == session.data[s.Key() := Lower(start)] ||
            Step(env, session, model, start).session == Fresh
  {
    CommandsExclusive(start);
  }

  /** Choosing a model part-way through the survey discards it: after `/model` and a name that loads, the user's
      context is empty and the global model is the lower-cased name. */
  lemma ModelChoiceDiscardsSurvey(env: Env, session: Session, model: Option<string>, s: SurveyState, command: string, name: string)
    requires session.state == Some(Survey(s)) && IsCommand(command, "model")
    requires !IsCommand(name, "model") && env.loads(Lower(name))
    ensures var chosen := Step(env, session, model, command);
      && chosen.session == session.(state := Some(ModelSelection))
      && Step(env, chosen.session, chosen.model, name).session == Fresh
      && Step(env, chosen.session, chosen.model, name).model == Some(Lower(name))
  {
  }
}

=== FILE: invariant.dfy ===
/** What every context reachable from a fresh one looks like, and what that
    rules out: the summary never misses an answer, and with a complete survey
    table the only exception left is a model that fails to load. */
module SurveyInvariant {

  import opened Wrappers
  import opened Text
  import opened States
  import opened Filters
  import opened Handlers

  /** The keys of the first `n` questions. */
  function FirstKeys(n: nat): set<string>
    requires n <= |SurveyOrder|
  {
    set i | 0 <= i < n :: SurveyOrder[i].Key()
  }

  lemma FirstKeysMember(n: nat, s: SurveyState)
    requires n <= |SurveyOrder|
    ensures s.Key() in FirstKeys(n) <==> s.Index() < n
  {
    if s.Key() in FirstKeys(n) {
      var i :| 0 <= i < n && SurveyOrder[i].Key() == s.Key();
      KeysDistinct(SurveyOrder[i], s);
    }
  }

  lemma FirstKeysGrow(n: nat)
    requires n < |SurveyOrder|
    ensures FirstKeys(n + 1) == FirstKeys(n) + {SurveyOrder[n].Key()}
  {
  }

  /** The stored answers are exactly those of the questions already passed:
      none outside the survey, all before the current question. In the model
      choice any prefix of the survey may be stored; after a failed last step
      the last question may hold all six. */
  predicate WellFormed(session: Session) {
    match session.state
    case None => session.data == map[]
    case Some(Survey(s)) =>
      session.data.Keys == FirstKeys(s.Index()) || (s == AdditionalComments && session.data.Keys == FirstKeys(6))
    case Some(ModelSelection) =>
      exists n :: 0 <= n <= |SurveyOrder| && session.data.Keys == FirstKeys(n)
  }

  /** A survey table with an entry for every step the handlers show. */
  predicate Complete(survey: map<string, StepDef>) {
    && IntroStep in survey
    && ThankYouStep in survey
    && forall s: SurveyState :: s.Key() in survey
  }

  /** What one message may do to a well-formed context: leave it well-formed,
      never miss an answer in the summary, and, with a complete survey table,
      fail only by choosing a model that does not load. */
  predicate SafeOutcome(env: Env, session: Session, text: string, r: Outcome) {
    && WellFormed(r.session)
    && (r.error.Some? ==> !r.error.value.MissingAnswer?)
    && (Complete(env.survey) && r.error.Some? ==>
          r.error == Some(LoadFailed(Lower(text))) && session.state == Some(ModelSelection))
  }

  /** At the last question of a well-formed context the five earlier answers
      are stored, so with the last one the summary finds all six. */
  lemma LastAnswerCompletesSummary(session: Session, text: string)
    requires WellFormed(session) && session.state == Some(Survey(AdditionalComments))
    ensures Summary(session.data[AdditionalComments.Key() := Lower(text)]).Success?
  {
    var data := session.data[AdditionalComments.Key() := Lower(text)];
    FirstKeysGrow(5);
    assert data.Keys == FirstKeys(6);
    forall i | 0 <= i < |SurveyOrder|
      ensures SurveyOrder[i].Key() in data
    {
      FirstKeysMember(6, SurveyOrder[i]);
    }
  }

  /** `/model` keeps the answers, and any prefix of the survey is allowed in the model choice. */
  lemma ChooseModelIsSafe(env: Env, session: Session, model: Option<string>, text: string)
    requires WellFormed(session) && Route(session.state, text) == ChooseModel
    ensures SafeOutcome(env, session, text, Step(env, session, model, text))
  {
    var r := ChooseModelHandler(session, model);
    assert Step(env, session, model, text) == r;
    match session.state {
      case None => assert session.data.Keys == FirstKeys(0);
      case Some(Survey(s)) =>
        if session.data.Keys == FirstKeys(s.Index()) {
          assert r.session.data.Keys == FirstKeys(s.Index());
        } else {
          assert r.session.data.Keys == FirstKeys(6);
        }
      case Some(ModelSelection) =>
    }
  }

  /** A model choice either clears the context or, failing to load, leaves it as it was. */
  lemma SelectModelIsSafe(env: Env, session: Session, model: Option<string>, text: string)
    requires WellFormed(session) && Route(session.state, text) == SelectModel
    ensures SafeOutcome(env, session, text, Step(env, session, model, text))
  {
    assert Step(env, session, model, text) == SelectModelHandler(env, session, model, text);
  }

  /** `/start` enters the first question with no answers stored. */
  lemma StartSurveyIsSafe(env: Env, session: Session, model: Option<string>, text: string)
    requires WellFormed(session) && Route(session.state, text) == StartSurvey
    ensures SafeOutcome(env, session, text, Step(env, session, model, text))
  {
    assert Step(env, session, model, text) == StartSurveyHandler(env, session, model);
    assert FirstKeys(0) == {};
  }

  /** An answer before the last adds the current question's key, which is the next one in survey order. */
  lemma AdvanceIsSafe(env: Env, session: Session, model: Option<string>, s: SurveyState, text: string)
    requires WellFormed(session) && session.state == Some(Survey(s)) && s != AdditionalComments
    ensures s.Index() + 1 < |SurveyOrder|
    ensures SafeOutcome(env, session, text, AnswerAndAdvance(env, session, model, s, text))
  {
    var data := session.data[s.Key() := Lower(text)];
    FirstKeysGrow(s.Index());
    OrderIndex(s.Index() + 1);
    var next := SurveyOrder[s.Index() + 1];
    var r := AnswerAndAdvance(env, session, model, s, text);
    assert r.session == Session(Some(Survey(next)), data);
    assert data.Keys == FirstKeys(next.Index());
    assert WellFormed(r.session);
    assert r.error == None || r.error == Some(MissingStep(next.Key()));
    assert Complete(env.survey) ==> next.Key() in env.survey;
  }

  /** The last answer completes the summary; the context is cleared, or keeps
      all six answers when the thank-you step is missing. */
  lemma FinishIsSafe(env: Env, session: Session, model: Option<string>, text: string)
    requires WellFormed(session) && session.state == Some(Survey(AdditionalComments))
    ensures SafeOutcome(env, session, text, AnswerAndFinish(env, session, model, text))
  {
    var data := session.data[AdditionalComments.Key() := Lower(text)];
    FirstKeysGrow(5);
    LastAnswerCompletesSummary(session, text);
    var r := AnswerAndFinish(env, session, model, text);
    if ThankYouStep in env.survey {
      assert r.session == Fresh && r.error == None;
    } else {
      assert r.session == session.(data := data);
      assert data.Keys == FirstKeys(6);
      assert r.error == Some(MissingStep(ThankYouStep));
    }
  }

  /** Every answer has a safe outcome. */
  lemma AnswerIsSafe(env: Env, session: Session, model: Option<string>, s: SurveyState, text: string)
    requires WellFormed(session) && Route(session.state, text) == Answer(s)
    ensures SafeOutcome(env, session, text, Step(env, session, model, text))
  {
    if s == AdditionalComments {
      assert Step(env, session, model, text) == AnswerAndFinish(env, session, model, text);
      FinishIsSafe(env, session, model, text);
    } else {
      AdvanceIsSafe(env, session, model, s, text);
      assert Step(env, session, model, text) == AnswerAndAdvance(env, session, model, s, text);
    }
  }

  /** Every message sent in a well-formed context has a safe outcome. */
  lemma {:induction false} StepIsSafe(env: Env, session: Session, model: Option<string>, text: string)
    requires WellFormed(session)
    ensures SafeOutcome(env, session, text, Step(env, session, model, text))
  {
    match Route(session.state, text)
    case ChooseModel => ChooseModelIsSafe(env, session, model, text);
    case SelectModel => SelectModelIsSafe(env, session, model, text);
    case StartSurvey => StartSurveyIsSafe(env, session, model, text);
    case Answer(s) => AnswerIsSafe(env, session, model, s, text);
    case Unhandled =>
  }

  /** Every handler keeps a well-formed context well-formed. */
  lemma {:induction false} StepPreservesWellFormed(env: Env, session: Session, model: Option<string>, text: string)
    requires WellFormed(session)
    ensures WellFormed(Step(env, session, model, text).session)
  {
    StepIsSafe(env, session, model, text);
  }

  /** From a well-formed context the summary always finds all six answers;
      with a complete survey table, the only exception a message can raise is
      a failed model load, raised in the model choice. */
  lemma {:induction false} WellFormedStepRaisesOnlyLoadFailures(env: Env, session: Session, model: Option<string>, text: string)
    requires WellFormed(session)
    ensures !Step(env, session, model, text).error.Some? || !Step(env, session, model, text).error.value.MissingAnswer?
    ensures Complete(env.survey) && Step(env, session, model, text).error.Some? ==>
      Step(env, session, model, text).error == Some(LoadFailed(Lower(text))) && session.state == Some(ModelSelection)
  {
    StepIsSafe(env, session, model, text);
  }
}

=== FILE: keyboard.dfy ===
/** Reply keyboards as built by `create_buttons` in lab04/bot/utils.py. */
module Keyboard {

  /** One keyboard button; `create_buttons` sets both fields to the option label. */
  datatype Button = Button(text: string, callbackData: string)

  /** A reply keyboard: rows of buttons, top to bottom. */
  datatype ReplyKeyboard = ReplyKeyboard(keyboard: seq<seq<Button>>)

  /** A keyboard with a single row holding one button per option, in order. */
  function CreateButtons(options: seq<string>): (k: ReplyKeyboard)
    ensures |k.keyboard| == 1
    ensures |k.keyboard[0]| == |options|
    ensures forall i :: 0 <= i < |options| ==> k.keyboard[0][i].text == options[i]
    ensures forall i :: 0 <= i < |options| ==> k.keyboard[0][i].callbackData == options[i]
  {
    ReplyKeyboard([Row(options)])
  }

  /** The row of buttons for `options`, built label by label. */
  function Row(options: seq<string>): (row: seq<Button>)
    ensures |row| == |options|
    ensures forall i :: 0 <= i < |options| ==> row[i] == Button(options[i], options[i])
  {
    if options == [] then [] else [Button(options[0], options[0])] + Row(options[1..])
  }

  /** The labels shown on the buttons of a row, left to right. */
  function Labels(row: seq<Button>): (labels: seq<string>)
    ensures |labels| == |row|
  {
    if row == [] then [] else [row[0].text] + Labels(row[1..])
  }

  /** Reading the labels back off the keyboard gives the options again, and
      every button reports its own label as callback data. */
  lemma {:induction false} LabelsRoundTrip(options: seq<string>)
    ensures Labels(CreateButtons(options).keyboard[0]) == options
    ensures forall b :: b in CreateButtons(options).keyboard[0] ==> b.callbackData == b.text
  {
    LabelsOfRow(options);
  }

  lemma {:induction false} LabelsOfRow(options: seq<string>)
    ensures Labels(Row(options)) == options
  {
    if options != [] {
      LabelsOfRow(options[1..]);
      assert Row(options)[1..] == Row(options[1..]);
    }
  }

  /** An empty option list still yields one (empty) row. */
  lemma EmptyOptionsGiveOneEmptyRow()
    ensures CreateButtons([]) == ReplyKeyboard([[]])
  {
  }
}

=== FILE: loader.dfy ===
/** The choice of loader class in `BaseModel.__init__`: a Llama checkpoint is
    meant to be loaded with the Llama class, every other with the generic one. */
module ModelLoader {

  import opened Text

  /** `t` occurs in `s` starting at index `i`. */
  predicate OccursAt(s: string, t: string, i: int) {
    0 <= i <= |s| - |t| && s[i..i + |t|] == t
  }

  /** `t in s` on strings. */
  predicate Contains(s: string, t: string) {
    exists i | 0 <= i <= |s| - |t| :: OccursAt(s, t, i)
  }

  /** The loader classes `BaseModel` chooses between. */
  datatype LoaderClass = LlamaForCausalLM | AutoModelForCausalLM

  /** The test as written: the capitalised word is looked for in the
      lower-cased name. */
  function LoaderAsWritten(modelName: string): LoaderClass {
    if Contains(Lower(modelName), "Llama") then LlamaForCausalLM else AutoModelForCausalLM
  }

  /** The test as intended: both sides lower-cased. */
  function Loader(modelName: string): LoaderClass {
    if Contains(Lower(modelName), "llama") then LlamaForCausalLM else AutoModelForCausalLM
  }

  /** A lower-cased name never contains a capital, so the written test never
      picks the Llama class, whatever the name. */
  lemma LlamaTestNeverHolds(modelName: string)
    ensures LoaderAsWritten(modelName) == AutoModelForCausalLM
  {
    var s := Lower(modelName);
    forall i | 0 <= i <= |s| - 5
      ensures !OccursAt(s, "Llama", i)
    {
      assert s[i..i + 5][0] == s[i] && !IsUpper(s[i]);
    }
  }

  /** The two checkpoints the bot offers. */
  const RuGpt3: string := "ai-forever/rugpt3medium_based_on_gpt2"
  const VikhrLlama: string := "Vikhrmodels/Vikhr-Llama-3.2-1B-Instruct"

  /** With both sides lower-cased, a name that spells Llama as
      `BaseModel.__init__` does picks the Llama class. */
  lemma LlamaNamesUseLlamaClass(modelName: string, i: int)
    requires OccursAt(modelName, "Llama", i)
    ensures Loader(modelName) == LlamaForCausalLM
  {
    var s := Lower(modelName);
    assert modelName[i] == 'L' && modelName[i + 1] == 'l' && modelName[i + 2] == 'a'
      && modelName[i + 3] == 'm' && modelName[i + 4] == 'a' by {
      assert modelName[i..i + 5] == "Llama";
    }
    assert s[i] == 'l' && s[i + 1] == 'l' && s[i + 2] == 'a' && s[i + 3] == 'm' && s[i + 4] == 'a';
    assert s[i..i + 5] == "llama";
    assert OccursAt(s, "llama", i);
  }

  /** Every name that spells Llama as `BaseModel.__init__` does is loaded with a
      different class by the written test than by the intended one. */
  lemma LoadersDisagree(modelName: string, i: int)
    requires OccursAt(modelName, "Llama", i)
    ensures LoaderAsWritten(modelName) == AutoModelForCausalLM
    ensures Loader(modelName) == LlamaForCausalLM
  {
    LlamaTestNeverHolds(modelName);
    LlamaNamesUseLlamaClass(modelName, i);
  }

  /** The offered Llama checkpoint has the word at index 18. */
  lemma VikhrLlamaSpellsLlama()
    ensures OccursAt(VikhrLlama, "Llama", 18)
  {
  }

  /** The offered Llama checkpoint, lower-cased as the model-selection handler
      passes it on: the written test loads it with the generic class, the
      intended one with the Llama class. */
  lemma VikhrLlamaLoader()
    ensures LoaderAsWritten(Lower(VikhrLlama)) == AutoModelForCausalLM
    ensures Loader(Lower(VikhrLlama)) == LlamaForCausalLM
  {
    VikhrLlamaSpellsLlama();
    LoadersDisagree(VikhrLlama, 18);
    LlamaTestNeverHolds(Lower(VikhrLlama));
    LowerIdempotent(VikhrLlama);
  }
}

=== FILE: scenarios.dfy ===
/** One user's messages through the dispatcher: starting, answering and finishing the survey. */
module Scenarios {

  import opened Wrappers
  import opened Text
  import opened States
  import opened Filters
  import opened Handlers
  import opened SurveyInvariant
  import opened Dispatcher

  /** `/start` from an empty context shows the introduction and the first
      question and enters the survey with no answers stored. */
  lemma StartFromFresh(env: Env, w: World, u: UserKey, start: string)
    requires Complete(env.survey) && IsCommand(start, "start")
    requires SessionOf(w, u) == Fresh
    ensures Dispatch(env, w, Event(u, start)) ==
      (World(w.sessions[u := Session(Some(Survey(OrderFrequency)), map[])], w.model),
       Outcome(Session(Some(Survey(OrderFrequency)), map[]), w.model,
               [Render(env, w.model, IntroStep).value, Render(env, w.model, OrderFrequency.Key()).value], None))
  {
    CommandsExclusive(start);
    assert Step(env, Fresh, w.model, start) == StartSurveyHandler(env, Fresh, w.model);
  }

  /** Answering a question before the last one stores the answer and shows the next question. */
  lemma AnswerAndAsk(env: Env, w: World, u: UserKey, s: SurveyState, text: string)
    requires Complete(env.survey)
    requires SessionOf(w, u).state == Some(Survey(s)) && s.Index() < 5
    requires !IsCommand(text, "model")
    ensures var next := SurveyOrder[s.Index() + 1];
      Dispatch(env, w, Event(u, text)) ==
      (World(w.sessions[u := Session(Some(Survey(next)), SessionOf(w, u).data[s.Key() := Lower(text)])], w.model),
       Outcome(Session(Some(Survey(next)), SessionOf(w, u).data[s.Key() := Lower(text)]), w.model,
               [Render(env, w.model, next.Key()).value], None))
  {
    var session := SessionOf(w, u);
    assert Step(env, session, w.model, text) == AnswerAndAdvance(env, session, w.model, s, text);
  }

  /** A message the router gives to a question's handler is handled by it. */
  lemma AnsweredByHandler(env: Env, session: Session, model: Option<string>, s: SurveyState, text: string)
    requires Route(session.state, text) == Answer(s)
    ensures Step(env, session, model, text) == AnswerHandler(env, session, model, s, text)
  {
  }

  /** The handler of the last question is `process_additional_comments`. */
  lemma LastHandlerFinishes(env: Env, session: Session, model: Option<string>, text: string)
    ensures AnswerHandler(env, session, model, AdditionalComments, text) == AnswerAndFinish(env, session, model, text)
  {
    assert Next(AdditionalComments) == None;
  }

  /** A message other than `/model` at the last question goes to
      `process_additional_comments`. */
  lemma LastQuestionRunsFinish(env: Env, session: Session, model: Option<string>, text: string)
    requires session.state == Some(Survey(AdditionalComments)) && !IsCommand(text, "model")
    ensures Step(env, session, model, text) == AnswerAndFinish(env, session, model, text)
  {
    assert Route(session.state, text) == Answer(AdditionalComments);
    AnsweredByHandler(env, session, model, AdditionalComments, text);
    LastHandlerFinishes(env, session, model, text);
  }

  /** Answering the last question of a well-formed context runs
      `process_additional_comments` and clears the context: the summary finds
      all six answers and the thank-you step is shown. */
  lemma AnswerLast(env: Env, w: World, u: UserKey, text: string)
    requires Complete(env.survey)
    requires WellFormed(SessionOf(w, u)) && SessionOf(w, u).state == Some(Survey(AdditionalComments))
    requires !IsCommand(text, "model")
    ensures var out := AnswerAndFinish(env, SessionOf(w, u), w.model, text);
      && Dispatch(env, w, Event(u, text)) == (World(w.sessions[u := Fresh], w.model), out)
      && out.session == Fresh && out.error == None && |out.replies| == 2
  {
    var session := SessionOf(w, u);
    var out := AnswerAndFinish(env, session, w.model, text);
    assert out.session == Fresh && out.error == None && |out.replies| == 2 by {
      LastAnswerCompletesSummary(session, text);
    }
    LastQuestionRunsFinish(env, session, w.model, text);
  }
}

=== FILE: states.dfy ===
/** The FSM states declared in lab04/bot/States.py. */
module States {

  import opened Wrappers

  /** The six survey questions, in the order the survey asks them. */
  datatype SurveyState =
    | OrderFrequency
    | OrderProcess
    | DeliverySpeed
    | DeliveryQuality
    | OverallSatisfaction
    | AdditionalComments
  {
    /** The state's attribute name: the key its answer is stored under and the
        key of its entry in the survey table. */
    function Key(): string {
      match this
      case OrderFrequency => "order_frequency"
      case OrderProcess => "order_process"
      case DeliverySpeed => "delivery_speed"
      case DeliveryQuality => "delivery_quality"
      case OverallSatisfaction => "overall_satisfaction"
      case AdditionalComments => "additional_comments"
    }

    /** Position of the question in the survey, from 0. */
    function Index(): (i: nat)
      ensures i < |SurveyOrder| && SurveyOrder[i] == this
    {
      match this
      case OrderFrequency => 0
      case OrderProcess => 1
      case DeliverySpeed => 2
      case DeliveryQuality => 3
      case OverallSatisfaction => 4
      case AdditionalComments => 5
    }
  }

  /** Every state the bot's FSM can be in: a survey question or the model choice. */
  datatype FsmState = Survey(step: SurveyState) | ModelSelection

  /** The survey questions in asking order. */
  const SurveyOrder: seq<SurveyState> :=
    [OrderFrequency, OrderProcess, DeliverySpeed, DeliveryQuality, OverallSatisfaction, AdditionalComments]

  /** The question asked after `s`: its successor in `SurveyOrder`, or none after the last. */
  function Next(s: SurveyState): (r: Option<SurveyState>)
    ensures r.Some? <==> s.Index() + 1 < |SurveyOrder|
    ensures r.Some? ==> r.value.Index() == s.Index() + 1
  {
    match s
    case OrderFrequency => Some(OrderProcess)
    case OrderProcess => Some(DeliverySpeed)
    case DeliverySpeed => Some(DeliveryQuality)
    case DeliveryQuality => Some(OverallSatisfaction)
    case OverallSatisfaction => Some(AdditionalComments)
    case AdditionalComments => None
  }

  /** `Index` and `SurveyOrder` are inverse: the question at position `i` has index `i`. */
  lemma OrderIndex(i: nat)
    requires i < |SurveyOrder|
    ensures SurveyOrder[i].Index() == i
  {
  }

  /** Different questions store their answers under different keys. */
  lemma KeysDistinct(s: SurveyState, t: SurveyState)
    ensures s.Key() == t.Key() <==> s == t
  {
  }
}

=== FILE: text.dfy ===
/** The few string operations of the Python runtime the bot relies on:
    `str.split()` whitespace, `str.lower()` and `str.replace()`. */
module Text {

  /** The characters Python's `str.split()` with no separator splits on. */
  predicate IsSpace(c: char) {
    || c == ' ' || c == '\t' || c == '\n' || c == '\r' || c == '\U{B}' || c == '\U{C}'
    || ('\U{1C}' <= c <= '\U{1F}')
    || c == '\U{85}' || c == '\U{A0}' || c == '\U{1680}'
    || ('\U{2000}' <= c <= '\U{200A}')
    || c == '\U{2028}' || c == '\U{2029}' || c == '\U{202F}' || c == '\U{205F}' || c == '\U{3000}'
  }

  /** `s` without its leading whitespace. */
  function TrimStart(s: string): (r: string)
    ensures |r| <= |s| && r == s[|s| - |r|..]
    ensures forall i :: 0 <= i < |s| - |r| ==> IsSpace(s[i])
    ensures r == [] || !IsSpace(r[0])
  {
    if s != [] && IsSpace(s[0]) then TrimStart(s[1..]) else s
  }

  /** The longest prefix of `s` that holds no whitespace. */
  function TakeWord(s: string): (r: string)
    ensures |r| <= |s| && r == s[..|r|]
    ensures forall i :: 0 <= i < |r| ==> !IsSpace(r[i])
    ensures |r| == |s| || IsSpace(s[|r|])
  {
    if s == [] || IsSpace(s[0]) then [] else [s[0]] + TakeWord(s[1..])
  }

  /** The first element of `s.split()`, or the empty string when `s` is blank. */
  function FirstWord(s: string): string {
    TakeWord(TrimStart(s))
  }

  /** The capital letters `str.lower()` is modelled on: Latin A-Z and the
      Cyrillic capitals U+0400..U+042F. */
  predicate IsUpper(c: char) {
    ('A' <= c <= 'Z') || ('\U{400}' <= c <= '\U{42F}')
  }

  /** Lower-case mapping of one character: A-Z and U+0410..U+042F move by 0x20,
      U+0400..U+040F (Ѐ..Џ) move by 0x50; every other character is kept. */
  function LowerChar(c: char): (r: char)
    ensures !IsUpper(r)
    ensures !IsUpper(c) ==> r == c
  {
    if ('A' <= c <= 'Z') || ('\U{410}' <= c <= '\U{42F}') then (c as int + 0x20) as char
    else if '\U{400}' <= c <= '\U{40F}' then (c as int + 0x50) as char
    else c
  }

  /** `s.lower()`, character by character. */
  function Lower(s: string): (r: string)
    ensures |r| == |s|
    ensures forall i :: 0 <= i < |s| ==> r[i] == LowerChar(s[i])
    ensures forall i :: 0 <= i < |r| ==> !IsUpper(r[i])
  {
    if s == [] then [] else [LowerChar(s[0])] + Lower(s[1..])
  }

  /** Lower-casing twice is lower-casing once. */
  lemma {:induction false} LowerIdempotent(s: string)
    ensures Lower(Lower(s)) == Lower(s)
  {
    if s != [] {
      LowerIdempotent(s[1..]);
      assert Lower(s) == [LowerChar(s[0])] + Lower(s[1..]);
      assert Lower(s)[1..] == Lower(s[1..]);
    }
  }

  /** `s.replace(a, b)` for single characters `a` and `b`. */
  function ReplaceChar(s: string, a: char, b: char): (r: string)
    ensures |r| == |s|
    ensures forall i :: 0 <= i < |s| ==> r[i] == (if s[i] == a then b else s[i])
    ensures a != b ==> a !in r
  {
    if s == [] then [] else [if s[0] == a then b else s[0]] + ReplaceChar(s[1..], a, b)
  }
}

=== FILE: wrappers.dfy ===
/** Failure-compatible wrappers used across the model: an optional value and
    a success-or-error result. */
module Wrappers {

  /** An optional value; `None` stands for Python's `None` or a missing key. */
  datatype Option<+T> = None | Some(value: T) {

    /** The wrapped value, or `default` when there is none (`dict.get(key, default)`). */
    function GetOr(default: T): T {
      match this
      case Some(v) => v
      case None => default
    }
  }

  /** The value a handler step computed, or the error it raised. */
  datatype Result<+R, +E> = Success(value: R) | Failure(error: E)
}
